=== FILE: README.md ===
# quanires in Dafny

quanires is a terminal client that searches an anime catalog site, lists the
episodes of a title, and hands play links to a video player. It also keeps a
watch history on disk. This project models the three pieces of pure logic
inside it and proves what they promise:

- **The watch-history store** (`EpisodeTracker`, module `Tracker`). It is a map
  from title url to the episode numbers seen. The model covers:
  - the line format (`url <> 1,2,3`, lines joined by `'\n'`) and its parser;
  - the serialiser, and the round trip between the two;
  - `episode_is_seen` (the predicate `Tracker.IsSeen`);
  - `watch_episode` and `unwatch_episode`, as pure updates plus the text they
    write.
- **The catalog resolver** (`query_anime`, `select_chapters`,
  `get_play_links`, module `Scraper`). HTTP, HTML selection, JSON and base64
  decoding are inputs here. What remains is:
  - the "drop incomplete items, then an empty set is an error" rule;
  - the error precedence of `select_chapters`;
  - the endpoint rewrite and the form body;
  - the pagination loop: pages of 50, stop after the first short page, abort
    on any failed page.
- **The menu derivations** (module `Menus`):
  - the retry loop of `query_menu`, as a state machine fed the search outcomes;
  - the option lists of the search, chapter and play menus (the play menu's
    list is built but, in the source, never shown);
  - the `ChapterSelection` triple;
  - the rule that choosing a chapter marks it watched before the play menu is
    built.

Supporting modules:
- `Wrappers`: `Option` and `Result`.
- `Seqs`: first match, filter-map, remove all.
- `Text`: Rust's `split`, `join`, `split_once` and `replace`.
- `Numbers`: `i32` with its `Display` and `FromStr`.

Two choices shape the model:

- Iteration order of the hash maps and hash sets is not defined by the
  program. Where it matters, it is an explicit parameter:
  - the serialiser takes any enumeration `order` of the keys, and the round
    trip is proved for every such order;
  - the search menu takes the result set as a sequence in any order.
- Episode numbers are the subset type `Numbers.I32`. Tokens outside the `i32`
  range are rejected by parsing, as `str::parse::<i32>` rejects them.

## Model

| member | source | states |
|---|---|---|
| Numbers.ParseShow | src/utils/tracker.rs:74-78 | parsing the decimal text that `to_string` writes for an `i32` gives back the same number |
| Numbers.ParseI32 | src/utils/tracker.rs:53 | `str::parse::<i32>` accepts only an optional leading sign followed by at least one decimal digit; a negative value comes only from a leading `-` |
| Numbers.DigitForms | src/utils/tracker.rs:53 | every run of digits within range is accepted, leading zeros included: bare and with `+` it gives its value, with `-` its negation |
| Numbers.ParseOtherForms | src/utils/tracker.rs:51-54 | a non-negative episode also reads back from `+n` and `0n`, so a hand-edited `u <> +3,03` loads as `[3, 3]` |
| Numbers.ParseRejectsOverflow | src/utils/tracker.rs:51-54 | a well-formed decimal outside the `i32` range does not parse, so such an episode token is skipped |
| Tracker.ParseEpisodes | src/utils/tracker.rs:51-54 | an episode is in the parsed list exactly when some comma-separated token parses as that `i32`; other tokens are skipped without error |
| Tracker.ParseEpisodesAppend | src/utils/tracker.rs:51-54 | the episodes of `x,y` are those of `x` followed by those of `y`, so order and repeats are kept |
| Tracker.ParseEpisodesToken | src/utils/tracker.rs:51-54 | a single token gives its `i32` value when it parses and nothing when it does not |
| Tracker.ParseEpisodesOfTokens | src/utils/tracker.rs:51-54 | a comma-joined list of tokens gives, in token order and with repeats, the value of each token that parses; `3,x,3,1` gives `[3, 3, 1]` |
| Tracker.ParseLinesKeys | src/utils/tracker.rs:44-57 | the keys of the parsed map are exactly the keys of the lines that contain `" <> "`; lines without it are dropped |
| Tracker.LastLineWins | src/utils/tracker.rs:44-57 | when several lines share a key, the episode list of the last of them is the one kept |
| Tracker.LoadEmpty | src/utils/tracker.rs:39-57 | an empty (freshly created) file loads as the empty map |
| Numbers.IntToString | src/utils/tracker.rs:76 | `to_string` of an integer is its canonical decimal: digits whose value is the number (or its negation after one `-`), with no leading zero |
| Tracker.ShowAll | src/utils/tracker.rs:74-78 | each episode is written as its decimal `i32` text, in list order |
| Tracker.Lines | src/utils/tracker.rs:69-79 | line `i` is `url <> e1,e2` for the `i`-th key of the iteration order and that key's list |
| Tracker.Serialize | src/utils/tracker.rs:68-81 | the written state is the empty text exactly when the map is empty |
| Tracker.SplitSerialize | src/utils/tracker.rs:68-81 | a non-empty state is exactly its lines joined by `'\n'`: splitting it at newlines gives one line per key, with no trailing empty line |
| Tracker.ParseShowEpisodes | src/utils/tracker.rs:51-54 | parsing a comma-joined episode list gives back the same list, in order and with repeats; the empty list comes back as empty |
| Tracker.ParseLineOfLine | src/utils/tracker.rs:47-55 | a line `url <> list` as the serialiser writes it parses back to the same url and list when the url holds no newline and no earlier `" <> "` |
| Tracker.LoadSerialize | src/utils/tracker.rs:68-81 | loading what `save_state` writes gives back the same map, for every key order, keys with empty lists included, when every key is storable |
| Tracker.Watched | src/utils/tracker.rs:97-102 | afterwards the episode is seen; an already seen episode changes nothing; a new key gets a list, an existing one is extended at the end by exactly one, and a list without duplicates keeps none; no other key changes |
| Tracker.Unwatched | src/utils/tracker.rs:112-115 | afterwards the episode is not seen; an unseen episode changes nothing; the key set is unchanged, so a list may become empty; every occurrence is removed and nothing else; no other key changes |
| Tracker.WatchedSeen | src/utils/tracker.rs:62-66 | after watching, `episode_is_seen` holds for a pair exactly when it held before or it is the watched pair |
| Tracker.UnwatchedSeen | src/utils/tracker.rs:62-66 | after unwatching, `episode_is_seen` holds for a pair exactly when it held before and it is not the unwatched pair |
| Tracker.WatchIdempotent | src/utils/tracker.rs:92-95 | watching the same episode twice is the same as watching it once |
| Tracker.UnwatchIdempotent | src/utils/tracker.rs:107-110 | unwatching the same episode twice is the same as unwatching it once |
| Tracker.UnwatchAfterWatch | src/utils/tracker.rs:97-115 | unwatching a just-watched, previously unseen episode restores the map, except that a new key stays behind with an empty list |
| Tracker.UnwatchKeepsOrder | src/utils/tracker.rs:112-115 | removing the episode keeps the remaining episodes in their order |
| Tracker.WatchEpisode | src/utils/tracker.rs:92-105 | the store becomes the watched map; nothing is written exactly when the episode was already seen; what is written loads back as the new map |
| Tracker.UnwatchEpisode | src/utils/tracker.rs:107-118 | the store becomes the unwatched map; nothing is written exactly when the episode was not seen; what is written loads back as the new map |
| Scraper.QueryAnime | src/utils/scraper.rs:34-54 | a failed request is `Request`; cards without a heading or a link are dropped; `NoResults` exactly when no complete card is left; otherwise the non-empty set of exactly the complete cards' entries |
| Scraper.Paginate | src/utils/scraper.rs:117-143 | pages are requested in order until the first reply that failed or held fewer than 50 chapters; every earlier page was full; the run aborts exactly when that last reply failed, and otherwise yields all pages concatenated in order |
| Scraper.PaginateFirstStop | src/utils/scraper.rs:134-141 | the first stopping reply alone fixes the number of requests (its index plus one) and the outcome |
| Scraper.PaginateThreePages | src/utils/scraper.rs:134-143 | pages of 50, 50 and 37 chapters take three requests and yield 137 chapters |
| Scraper.PaginateFullThenEmpty | src/utils/scraper.rs:134-143 | a page of exactly 50 triggers another request: pages of 50 and 0 take two requests and yield 50 chapters |
| Scraper.ChapterEndpointRewrites | src/utils/scraper.rs:121 | the POST target is the list url with its `ajax_pagination` segment replaced by `caplist` and nothing else changed |
| Scraper.SelectChapters | src/utils/scraper.rs:90-144 | errors come in the order request, list url, token, and none of them sends a POST; otherwise page `p` is posted as `_token=<encoded token>&p=<p>` to the rewritten url; a failed page request or decode makes the whole result `Request`, with no partial list; success exactly when the loop completes, with its chapters |
| Scraper.ListUrlBeforeToken | src/utils/scraper.rs:102-115 | a title page missing both the list url and the token reports `EpisodeListUrl` |
| Scraper.GetPlayLinks | src/utils/scraper.rs:155-170 | a failed request is `Request`; buttons without `data-player` or whose value does not decode are skipped; `NoLinks` exactly when none is left; otherwise the non-empty set of exactly the decoded links |
| Menus.RunSearch | src/utils/menus.rs:46-61 | the first question is asked first and the retry question after each empty search; the loop leaves with the results on success and with an error on a failed request, and stays only after empty searches |
| Menus.SearchLeavesAtFirstAnswer | src/utils/menus.rs:49-61 | the loop ends at the first search that is not empty, after exactly that many questions |
| Menus.SearchOptions | src/utils/menus.rs:63-80 | one option per result (its name, valued by its url) in iteration order, then `op_retry`, then `op_quit` |
| Menus.ChooseSearch | src/utils/menus.rs:82-103 | `op_quit` quits, `op_retry` searches again, any other value opens the first result with that url |
| Menus.SearchMenuValues | src/utils/menus.rs:63-80 | a value is offered by the result menu exactly when it is `op_quit`, `op_retry` or some result's url |
| Menus.ChapterMenuValueList | src/utils/menus.rs:141-171 | the chapter menu's values are `op_back`, `op_quit`, then each chapter's url in list order |
| Menus.ChapterOptionsLabels | src/utils/menus.rs:149-167 | each chapter option is valued by its url and labelled `Capitulo n`, and has the `Visto` hint exactly when a store is present and the episode is seen |
| Menus.ChapterMenuValues | src/utils/menus.rs:141-171 | a value is offered by the chapter menu exactly when it is `op_back`, `op_quit` or some chapter's url |
| Menus.HintKeepsValues | src/utils/menus.rs:153-164 | the seen hint never changes the values the chapter menu offers |
| Menus.Numbered | src/utils/menus.rs:190-200 | the first chapter with a given number, absent exactly when no chapter has it |
| Menus.SelectChapter | src/utils/menus.rs:183-200 | `current` is the first chapter with the chosen url; `last` and `next` are the first chapters numbered one less and one more |
| Menus.ChooseChapter | src/utils/menus.rs:173-215 | `op_quit` exits, `op_back` goes back, and any other value plays the selection of `SelectChapter` (the first chapter with that url and its neighbours by number), after marking that chapter watched in the store when there is one, so it is seen there |
| Menus.PlayActions | src/utils/menus.rs:230-250 | previous and next episode exactly when those neighbours exist, unwatch exactly when a store is present and the episode is seen, always followed by the three fixed entries, each at most once and in that order |
| Menus.PlayValuesDistinct | src/utils/menus.rs:230-250 | different play entries carry different option values |
| Menus.PlayMenuOffersUnwatch | src/utils/menus.rs:240-244 | the option list `play_menu` builds holds `op_unwatch` exactly when a store is present and the current episode is seen |
| Menus.PlayMenuOffersNeighbours | src/utils/menus.rs:232-238 | the option list `play_menu` builds holds `op_last_episode` and `op_next_episode` exactly when the matching neighbour exists |
| Menus.PlayMenuOffersExit | src/utils/menus.rs:246-250 | the option list `play_menu` builds always holds `op_exit` |
| Menus.PlayAfterChoosingOffersUnwatch | src/utils/menus.rs:202-215 | because the chosen chapter is watched first, the play options built after the chapter menu hold unwatch exactly when a store is present |
| Menus.PlayAfterChoosingOffersNeighbours | src/utils/menus.rs:184-237 | after a chapter is chosen, the play options hold the previous and the next episode exactly when the list has a chapter numbered one less or one more |

## Left out

- File system: resolving the save path per OS, creating the file and writing it. The file is a string replaced wholesale. So the errors `SavePath`, `UnsupportedOs` and `SaveFile` are not modelled.
- Tracker.WatchEpisode: a failed write is not modelled. The source updates the in-memory map before writing, so the new map is the same whether or not the write succeeds.
- Tracker.UnwatchEpisode: a failed write is not modelled, for the same reason.
- Network I/O: the HTTP client, cookie store and request headers. Each request's outcome is an input.
- The HTML selectors, JSON decoding, URL encoding of the search query and of the token, and URL-safe base64 plus UTF-8 decoding. These are inputs, or function parameters (`encode`, `decode`), returning `None` on failure.
- The search url built from the query: it depends only on URL encoding, which is a parameter.
- Tracker.Serialize: takes the key order as a parameter, because hash-map iteration order is not defined. The round trip is proved for every order.
- Menus.SearchOptions: takes the result set's iteration order as a sequence, for the same reason.
- Scraper.Paginate: an endless run of full pages does not end in the source. The replies are a finite script whose last reply stops the loop, so that case is excluded.
- Scraper.SelectChapters: the `i32` page counter overflows only after 2^31 full pages. This is not modelled.
- Menus.SelectChapter: `current.number ± 1` uses unbounded integers, so the `i32` overflow at the range ends is not modelled.
- Menus.ChooseSearch: the source unwraps the lookup of the chosen url. The model requires the chosen value to be one the menu offers (`Menus.SearchMenuValues` lists them), which is what the prompt returns.
- Menus.ChooseChapter: the same requirement, for the same reason (`Menus.ChapterMenuValues` lists the values).
- Menus.SelectChapter: requires that some chapter has the chosen url, for the same reason.
- Text.ReplaceAll: requires a non-empty pattern. The only pattern used, `ajax_pagination`, is not empty.
- The terminal prompts, screen clearing and `exit` calls, beyond the value the user chooses.
- The `check_mpv` guard of `query_menu`.
- The recursion between menus (`op_retry`, `op_back`): each menu is modelled as one step that returns the choice.
- In `play_menu`, fetching the play links and starting the player (`mpv.rs`), which is process spawning and concurrency.
- `play_menu` builds its option list but never shows it to the user (menus.rs:263 is a TODO), so there is no answer to model. The play-menu lemmas (`Menus.PlayActions`, `Menus.PlayMenuOffersUnwatch` and the others) describe the option list that is built.
- Menus.ChooseChapter: marks the chosen chapter with `Tracker.Watched`, the in-memory record only; the file rewrite that `watch_episode` does for an unseen chapter (menus.rs:203) is modelled by `Tracker.WatchEpisode` and is not carried in the `Play` result.
- Menus.ChooseChapter: a failed `watch_episode` write (the `?` at menus.rs:203) ends the chapter menu with `TrackerError`, and the play menu is never reached. The model does not model write failures, so it always returns `Play` for a chapter value.
- `main.rs`, which is wiring only.

Two behaviours of the code worth noting:
- unwatching the last episode of a title keeps the title with an empty list (tracker.rs:112-115);
- an empty chapter list is not an error: it gives a chapter menu with only back and quit (scraper.rs:117-143, menus.rs:141-171).

=== FILE: menus.dfy ===
/** The navigation flow with the terminal prompts taken out: the option lists
    each menu shows, what a choice leads to, and the retry loop of the search
    prompt. A prompt's answer arrives as input. */
module Menus {
  import opened Wrappers
  import opened Numbers
  import Seqs
  import Tracker
  import opened Scraper

  /** One entry of a select prompt; only `value` identifies the choice. */
  datatype SelectOption = SelectOption(caption: string, value: string, hint: Option<string>)

  function Values(options: seq<SelectOption>): (r: seq<string>)
    ensures |r| == |options|
    ensures forall i | 0 <= i < |options| :: r[i] == options[i].value
  {
    seq(|options|, i requires 0 <= i < |options| => options[i].value)
  }

  const OpRetry: string := "op_retry"
  const OpQuit: string := "op_quit"
  const OpBack: string := "op_back"
  const OpLastEpisode: string := "op_last_episode"
  const OpNextEpisode: string := "op_next_episode"
  const OpUnwatch: string := "op_unwatch"
  const OpWatchOtherAnime: string := "op_watch_other_anime"
  const OpWatchOtherEpisode: string := "op_watch_other_episode"
  const OpExit: string := "op_exit"

  // ---------------------------------------------------------------------------
  // The search prompt and its retry loop
  // ---------------------------------------------------------------------------

  const FirstQuestion: string := "Que deseas ver?"
  const RetryQuestion: string := "prueba a buscar otra cosa. Que deseas ver?"

  type QueryOutcome = Result<set<AnimeEntry>, QueryAnimeError>

  /** Where the search loop stands: asking `question`, or left with the results
      or with the request error. */
  datatype SearchState = Asking(question: string) | Found(results: set<AnimeEntry>) | Failed

  /** One round of the loop: an empty search re-asks with the other question. */
  function SearchStep(outcome: QueryOutcome): SearchState
  {
    match outcome
    case Success(results) => Found(results)
    case Failure(error) => if error.Request? then Failed else Asking(RetryQuestion)
  }

  /** The loop of `query_menu` from the question `q`, fed the outcomes of the
      searches the user types in turn; returns the final state and the questions
      asked. */
  function RunSearch(q: string, outcomes: seq<QueryOutcome>): (r: (SearchState, seq<string>))
    decreases |outcomes|
    ensures |r.1| <= |outcomes|
    ensures |r.1| > 0 ==> r.1[0] == q
    ensures forall i | 1 <= i < |r.1| :: r.1[i] == RetryQuestion
    ensures forall i | 0 <= i < |r.1| - 1 :: outcomes[i] == Failure(QueryAnimeError.NoResults)
    ensures r.0.Asking? ==> |r.1| == |outcomes| && r.0.question == (if |outcomes| == 0 then q else RetryQuestion)
    ensures r.0.Asking? && |outcomes| > 0 ==> outcomes[|outcomes| - 1] == Failure(QueryAnimeError.NoResults)
    ensures r.0.Found? ==> |r.1| > 0 && outcomes[|r.1| - 1] == Success(r.0.results)
    ensures r.0.Failed? ==> |r.1| > 0 && outcomes[|r.1| - 1] == Failure(QueryAnimeError.Request)
  {
    if |outcomes| == 0 then (Asking(q), [])
    else
      match SearchStep(outcomes[0])
      case Asking(q') =>
        var rest := RunSearch(q', outcomes[1..]);
        (rest.0, [q] + rest.1)
      case other => (other, [q])
  }

  /** The loop leaves at the first search that did not come back empty, after
      asking the first question once and the retry question for every empty one. */
  lemma SearchLeavesAtFirstAnswer(outcomes: seq<QueryOutcome>, k: nat)
    requires k < |outcomes| && outcomes[k] != Failure(QueryAnimeError.NoResults)
    requires forall i | 0 <= i < k :: outcomes[i] == Failure(QueryAnimeError.NoResults)
    ensures RunSearch(FirstQuestion, outcomes).0 == SearchStep(outcomes[k])
    ensures |RunSearch(FirstQuestion, outcomes).1| == k + 1
  {
    var r := RunSearch(FirstQuestion, outcomes);
    assert !r.0.Asking?;
  }

  // ---------------------------------------------------------------------------
  // The search result menu
  // ---------------------------------------------------------------------------

  /** The options of the result menu; `results` is the order the result set is
      iterated in. */
  function SearchOptions(results: seq<AnimeEntry>): (r: seq<SelectOption>)
    ensures |r| == |results| + 2
    ensures forall i | 0 <= i < |results| :: r[i].value == results[i].url && r[i].caption == results[i].name
    ensures r[|results|].value == OpRetry && r[|results| + 1].value == OpQuit
  {
    seq(|results|, i requires 0 <= i < |results| => SelectOption(results[i].name, results[i].url, None))
    + [ SelectOption("Volver a buscar", OpRetry, Some("Realiza otra busqueda")),
        SelectOption("Salir", OpQuit, Some("Cerrar el programa")) ]
  }

  datatype SearchChoice = Quit | SearchAgain | Open(anime: AnimeEntry)

  /** What the answer to the result menu leads to: the control values first,
      otherwise the first result with the chosen url. */
  function ChooseSearch(results: seq<AnimeEntry>, chosen: string): (c: SearchChoice)
    requires chosen == OpQuit || chosen == OpRetry || exists i | 0 <= i < |results| :: results[i].url == chosen
    ensures c.Quit? <==> chosen == OpQuit
    ensures c.SearchAgain? <==> chosen == OpRetry
    ensures c.Open? ==> exists i | 0 <= i < |results| ::
              results[i] == c.anime && c.anime.url == chosen && forall j | 0 <= j < i :: results[j].url != chosen
  {
    if chosen == OpQuit then Quit
    else if chosen == OpRetry then SearchAgain
    else
      var i := Seqs.Find(results, (a: AnimeEntry) => a.url == chosen);
      Open(results[i.value])
  }

  /** The values the result menu offers: every result url and the two controls. */
  lemma SearchMenuValues(results: seq<AnimeEntry>, chosen: string)
    ensures chosen in Values(SearchOptions(results)) <==>
              chosen == OpQuit || chosen == OpRetry || exists i | 0 <= i < |results| :: results[i].url == chosen
  {
    var options := SearchOptions(results);
    var vs := Values(options);
    if chosen in vs {
      var k :| 0 <= k < |vs| && vs[k] == chosen;
      assert options[k].value == chosen;
      if k < |results| {
        assert results[k].url == chosen;
      }
    }
    if chosen == OpQuit {
      assert vs[|results| + 1] == chosen;
    } else if chosen == OpRetry {
      assert vs[|results|] == chosen;
    } else if exists i | 0 <= i < |results| :: results[i].url == chosen {
      var i :| 0 <= i < |results| && results[i].url == chosen;
      assert vs[i] == chosen;
    }
  }

  // ---------------------------------------------------------------------------
  // The chapter menu
  // ---------------------------------------------------------------------------

  const SeenHint: string := "Visto"

  /** The option for one chapter, hinted when the store says it was seen. */
  function ChapterOption(animeUrl: string, tracker: Option<Tracker.Episodes>, chapter: ChapterInfo): (o: SelectOption)
    ensures o.value == chapter.url
  {
    var hint := if tracker.Some? && Tracker.IsSeen(tracker.value, animeUrl, chapter.number) then Some(SeenHint) else None;
    SelectOption("Capitulo " + IntToString(chapter.number), chapter.url, hint)
  }

  /** The two control entries that open the chapter menu. */
  const ChapterControls: seq<SelectOption> :=
    [ SelectOption("Atras", OpBack, Some("Realiza otra busqueda")),
      SelectOption("Salir", OpQuit, Some("Cerrar el programa")) ]

  /** One option per chapter, in list order. */
  function ChapterList(animeUrl: string, chapters: seq<ChapterInfo>, tracker: Option<Tracker.Episodes>): (r: seq<SelectOption>)
    ensures |r| == |chapters|
    ensures forall i | 0 <= i < |chapters| :: r[i] == ChapterOption(animeUrl, tracker, chapters[i])
  {
    seq(|chapters|, i requires 0 <= i < |chapters| => ChapterOption(animeUrl, tracker, chapters[i]))
  }

  /** The options of the chapter menu: back and quit, then one per chapter in
      list order. */
  function ChapterOptions(animeUrl: string, chapters: seq<ChapterInfo>, tracker: Option<Tracker.Episodes>): (r: seq<SelectOption>)
    ensures |r| == |chapters| + 2
  {
    ChapterControls + ChapterList(animeUrl, chapters, tracker)
  }

  /** Each chapter option is valued by the chapter url and labelled `Capitulo n`,
      and carries the seen hint exactly when a store is present and says so. */
  lemma ChapterOptionsLabels(animeUrl: string, chapters: seq<ChapterInfo>, tracker: Option<Tracker.Episodes>, i: nat)
    requires i < |chapters|
    ensures var o := ChapterOptions(animeUrl, chapters, tracker)[i + 2];
      && o.value == chapters[i].url
      && o.caption == "Capitulo " + IntToString(chapters[i].number)
      && o.hint == (if tracker.Some? && Tracker.IsSeen(tracker.value, animeUrl, chapters[i].number) then Some(SeenHint) else None)
  {
  }

  /** The episode picked, with its neighbours by number when the list has them. */
  datatype ChapterSelection = ChapterSelection(last: Option<ChapterInfo>, current: ChapterInfo, next: Option<ChapterInfo>)

  /** The first chapter numbered `n`. */
  function Numbered(chapters: seq<ChapterInfo>, n: int): (r: Option<ChapterInfo>)
    ensures r.Some? <==> exists i | 0 <= i < |chapters| :: chapters[i].number == n
    ensures r.Some? ==> exists i | 0 <= i < |chapters| ::
              chapters[i] == r.value && r.value.number == n && forall j | 0 <= j < i :: chapters[j].number != n
  {
    var i := Seqs.Find(chapters, (c: ChapterInfo) => c.number == n);
    if i.Some? then Some(chapters[i.value]) else None
  }

  /** The selection triple of `chapter_menu`: the first chapter with the chosen
      url and the first chapters numbered one less and one more. */
  function SelectChapter(chapters: seq<ChapterInfo>, chosen: string): (s: ChapterSelection)
    requires exists i | 0 <= i < |chapters| :: chapters[i].url == chosen
    ensures exists i | 0 <= i < |chapters| ::
              chapters[i] == s.current && s.current.url == chosen && forall j | 0 <= j < i :: chapters[j].url != chosen
    ensures s.last == Numbered(chapters, s.current.number - 1)
    ensures s.next == Numbered(chapters, s.current.number + 1)
  {
    var i := Seqs.Find(chapters, (c: ChapterInfo) => c.url == chosen);
    var current := chapters[i.value];
    assert forall j | 0 <= j < i.value :: chapters[j].url != chosen;
    ChapterSelection(Numbered(chapters, current.number - 1), current, Numbered(chapters, current.number + 1))
  }

  /** The urls of the chapters, in list order. */
  function ChapterUrls(chapters: seq<ChapterInfo>): (r: seq<string>)
    ensures |r| == |chapters|
    ensures forall i | 0 <= i < |chapters| :: r[i] == chapters[i].url
  {
    seq(|chapters|, i requires 0 <= i < |chapters| => chapters[i].url)
  }

  /** The values of a concatenation are the concatenated values. */
  lemma ValuesAppend(a: seq<SelectOption>, b: seq<SelectOption>)
    ensures Values(a + b) == Values(a) + Values(b)
  {
    assert forall k | 0 <= k < |a + b| :: Values(a + b)[k] == (Values(a) + Values(b))[k];
  }

  /** The values of the chapter menu are back, quit, then the chapter urls in order. */
  lemma ChapterMenuValueList(animeUrl: string, chapters: seq<ChapterInfo>, tracker: Option<Tracker.Episodes>)
    ensures Values(ChapterOptions(animeUrl, chapters, tracker)) == [OpBack, OpQuit] + ChapterUrls(chapters)
  {
    var list := ChapterList(animeUrl, chapters, tracker);
    ValuesAppend(ChapterControls, list);
    assert Values(ChapterControls) == [OpBack, OpQuit];
    assert Values(list) == ChapterUrls(chapters);
  }

  /** The seen hint is display only: with or without a store the menu offers
      the same values. */
  lemma HintKeepsValues(animeUrl: string, chapters: seq<ChapterInfo>, tracker: Option<Tracker.Episodes>)
    ensures Values(ChapterOptions(animeUrl, chapters, tracker)) == Values(ChapterOptions(animeUrl, chapters, None))
  {
    ChapterMenuValueList(animeUrl, chapters, tracker);
    ChapterMenuValueList(animeUrl, chapters, None);
  }

  /** The values the chapter menu offers: back, quit and every chapter url. */
  lemma ChapterMenuValues(animeUrl: string, chapters: seq<ChapterInfo>, tracker: Option<Tracker.Episodes>, chosen: string)
    ensures chosen in Values(ChapterOptions(animeUrl, chapters, tracker)) <==>
              chosen == OpBack || chosen == OpQuit || exists i | 0 <= i < |chapters| :: chapters[i].url == chosen
  {
    ChapterMenuValueList(animeUrl, chapters, tracker);
    var urls := ChapterUrls(chapters);
    if chosen in urls {
      var i :| 0 <= i < |urls| && urls[i] == chosen;
      assert chapters[i].url == chosen;
    }
    if exists i | 0 <= i < |chapters| :: chapters[i].url == chosen {
      var i :| 0 <= i < |chapters| && chapters[i].url == chosen;
      assert urls[i] == chosen;
    }
  }

  datatype ChapterChoice = Exit | Back | Play(selection: ChapterSelection, tracker: Option<Tracker.Episodes>)

  /** What the answer to the chapter menu leads to. Choosing a chapter marks it
      seen in the store, when there is one, before the play menu is built. */
  function ChooseChapter(animeUrl: string, chapters: seq<ChapterInfo>, tracker: Option<Tracker.Episodes>, chosen: string): (c: ChapterChoice)
    requires chosen == OpQuit || chosen == OpBack || exists i | 0 <= i < |chapters| :: chapters[i].url == chosen
    ensures c.Exit? <==> chosen == OpQuit
    ensures c.Back? <==> chosen == OpBack
    ensures c.Play? ==> c.selection == SelectChapter(chapters, chosen) && (c.tracker.Some? <==> tracker.Some?)
    ensures chosen != OpQuit && chosen != OpBack ==> c.Play?
    ensures c.Play? && tracker.Some? ==>
              c.tracker.value == Tracker.Watched(tracker.value, animeUrl, c.selection.current.number)
    ensures c.Play? && c.tracker.Some? ==> Tracker.IsSeen(c.tracker.value, animeUrl, c.selection.current.number)
  {
    if chosen == OpQuit then Exit
    else if chosen == OpBack then Back
    else
      var selection := SelectChapter(chapters, chosen);
      var marked := if tracker.Some? then Some(Tracker.Watched(tracker.value, animeUrl, selection.current.number)) else None;
      Play(selection, marked)
  }

  // ---------------------------------------------------------------------------
  // The play menu: `play_menu` builds this option list but does not yet
  // prompt with it, so what follows describes the list it builds.
  // ---------------------------------------------------------------------------

  /** The entries the play menu can offer, in the order it lists them. */
  datatype PlayAction = LastEpisode | NextEpisode | Unwatch | WatchOtherAnime | WatchOtherEpisode | ExitPlayer

  /** The position of an action in the menu's fixed order. */
  function Rank(a: PlayAction): nat
  {
    match a
    case LastEpisode => 0
    case NextEpisode => 1
    case Unwatch => 2
    case WatchOtherAnime => 3
    case WatchOtherEpisode => 4
    case ExitPlayer => 5
  }

  /** The option value `play_menu` gives an action. */
  function ActionValue(a: PlayAction): string
  {
    match a
    case LastEpisode => OpLastEpisode
    case NextEpisode => OpNextEpisode
    case Unwatch => OpUnwatch
    case WatchOtherAnime => OpWatchOtherAnime
    case WatchOtherEpisode => OpWatchOtherEpisode
    case ExitPlayer => OpExit
  }

  /** The option `play_menu` shows for an action. */
  function PlayOption(a: PlayAction): (o: SelectOption)
    ensures o.value == ActionValue(a)
  {
    match a
    case LastEpisode => SelectOption("Anterior episodio", OpLastEpisode, None)
    case NextEpisode => SelectOption("Siguiente episodio", OpNextEpisode, None)
    case Unwatch => SelectOption("Desmarcar como visto", OpUnwatch, None)
    case WatchOtherAnime => SelectOption("Ver otro anime", OpWatchOtherAnime, None)
    case WatchOtherEpisode => SelectOption("Ver otro capitulo", OpWatchOtherEpisode, None)
    case ExitPlayer => SelectOption("Salir", OpExit, Some("Cerrar el programa y el reproductor"))
  }

  /** Different actions carry different option values, so a choice names one action. */
  lemma PlayValuesDistinct(a: PlayAction, b: PlayAction)
    requires a != b
    ensures ActionValue(a) != ActionValue(b)
  {
  }

  /** The conditional head of a play menu whose current episode has a previous
      one (`hasLast`), a next one (`hasNext`) and is seen (`seen`). */
  function OptionalActions(hasLast: bool, hasNext: bool, seen: bool): (r: seq<PlayAction>)
    ensures LastEpisode in r <==> hasLast
    ensures NextEpisode in r <==> hasNext
    ensures Unwatch in r <==> seen
    ensures forall x | x in r :: Rank(x) < 3
    ensures Ranked(r)
  {
    var last := if hasLast then [LastEpisode] else [];
    var next := if hasNext then [NextEpisode] else [];
    var unwatch := if seen then [Unwatch] else [];
    RankedAppend(last, next, 1);
    RankedAppend(last + next, unwatch, 2);
    last + next + unwatch
  }

  /** The whole play menu: the conditional head, then the three fixed entries. */
  function ActionsFor(hasLast: bool, hasNext: bool, seen: bool): (r: seq<PlayAction>)
    ensures LastEpisode in r <==> hasLast
    ensures NextEpisode in r <==> hasNext
    ensures Unwatch in r <==> seen
    ensures |r| >= 3 && r[|r| - 3..] == [WatchOtherAnime, WatchOtherEpisode, ExitPlayer]
    ensures Ranked(r)
  {
    var head := OptionalActions(hasLast, hasNext, seen);
    var fixed := [WatchOtherAnime, WatchOtherEpisode, ExitPlayer];
    RankedAppend(head, fixed, 3);
    head + fixed
  }

  /** The actions of `play_menu`: the episode neighbours that exist, unwatch when
      the current episode is seen, then the three fixed entries. */
  function PlayActions(animeUrl: string, selection: ChapterSelection, tracker: Option<Tracker.Episodes>): (r: seq<PlayAction>)
    ensures LastEpisode in r <==> selection.last.Some?
    ensures NextEpisode in r <==> selection.next.Some?
    ensures Unwatch in r <==> tracker.Some? && Tracker.IsSeen(tracker.value, animeUrl, selection.current.number)
    ensures |r| >= 3 && r[|r| - 3..] == [WatchOtherAnime, WatchOtherEpisode, ExitPlayer]
    ensures Ranked(r)
  {
    ActionsFor(selection.last.Some?, selection.next.Some?,
               tracker.Some? && Tracker.IsSeen(tracker.value, animeUrl, selection.current.number))
  }

  /** The actions appear in strictly increasing rank, hence each at most once. */
  predicate Ranked(s: seq<PlayAction>) {
    forall i, j | 0 <= i < j < |s| :: Rank(s[i]) < Rank(s[j])
  }

  lemma RankedAppend(a: seq<PlayAction>, b: seq<PlayAction>, bound: nat)
    requires Ranked(a) && Ranked(b)
    requires forall x | x in a :: Rank(x) < bound
    requires forall y | y in b :: bound <= Rank(y)
    ensures Ranked(a + b)
  {
    forall i, j | 0 <= i < j < |a + b|
      ensures Rank((a + b)[i]) < Rank((a + b)[j])
    {
      if j < |a| {
        assert (a + b)[i] == a[i] && (a + b)[j] == a[j];
      } else if i >= |a| {
        assert (a + b)[i] == b[i - |a|] && (a + b)[j] == b[j - |a|];
      } else {
        assert (a + b)[i] in a && (a + b)[j] in b;
      }
    }
  }

  /** The options for a run of actions, in the same order. */
  function OptionsOf(actions: seq<PlayAction>): (r: seq<SelectOption>)
    ensures |r| == |actions|
    ensures forall i | 0 <= i < |r| :: r[i] == PlayOption(actions[i])
  {
    seq(|actions|, i requires 0 <= i < |actions| => PlayOption(actions[i]))
  }

  /** The options of `play_menu`, one per action in order. */
  function PlayOptions(animeUrl: string, selection: ChapterSelection, tracker: Option<Tracker.Episodes>): seq<SelectOption>
  {
    OptionsOf(PlayActions(animeUrl, selection, tracker))
  }

  /** An action is on offer exactly when its option value is among the menu's values. */
  lemma {:induction false} OfferedValue(actions: seq<PlayAction>, a: PlayAction)
    ensures ActionValue(a) in Values(OptionsOf(actions)) <==> a in actions
  {
    var vs := Values(OptionsOf(actions));
    if a in actions {
      var i :| 0 <= i < |actions| && actions[i] == a;
      assert vs[i] == PlayOption(a).value;
    }
    if ActionValue(a) in vs {
      var i :| 0 <= i < |vs| && vs[i] == ActionValue(a);
      if actions[i] != a {
        PlayValuesDistinct(actions[i], a);
      }
    }
  }

  /** The play options hold `op_unwatch` exactly when the current episode is seen. */
  lemma PlayMenuOffersUnwatch(animeUrl: string, selection: ChapterSelection, tracker: Option<Tracker.Episodes>)
    ensures OpUnwatch in Values(PlayOptions(animeUrl, selection, tracker)) <==>
              tracker.Some? && Tracker.IsSeen(tracker.value, animeUrl, selection.current.number)
  {
    OfferedValue(PlayActions(animeUrl, selection, tracker), Unwatch);
  }

  /** The play options hold each neighbour option exactly when that neighbour exists. */
  lemma PlayMenuOffersNeighbours(animeUrl: string, selection: ChapterSelection, tracker: Option<Tracker.Episodes>)
    ensures OpLastEpisode in Values(PlayOptions(animeUrl, selection, tracker)) <==> selection.last.Some?
    ensures OpNextEpisode in Values(PlayOptions(animeUrl, selection, tracker)) <==> selection.next.Some?
  {
    var actions := PlayActions(animeUrl, selection, tracker);
    OfferedValue(actions, LastEpisode);
    OfferedValue(actions, NextEpisode);
  }

  /** A run of actions ending in the three fixed entries offers `op_exit`. */
  lemma FixedTailOffersExit(actions: seq<PlayAction>)
    requires |actions| >= 3 && actions[|actions| - 3..] == [WatchOtherAnime, WatchOtherEpisode, ExitPlayer]
    ensures OpExit in Values(OptionsOf(actions))
  {
    assert actions[|actions| - 1] == actions[|actions| - 3..][2];
    assert Values(OptionsOf(actions))[|actions| - 1] == OpExit;
  }

  /** The play options always hold the option that closes the program. */
  lemma PlayMenuOffersExit(animeUrl: string, selection: ChapterSelection, tracker: Option<Tracker.Episodes>)
    ensures OpExit in Values(PlayOptions(animeUrl, selection, tracker))
  {
    FixedTailOffersExit(PlayActions(animeUrl, selection, tracker));
  }

  /** Because choosing a chapter marks it first, the play options built with a
      store always hold unwatch, and those built without one never do. */
  lemma PlayAfterChoosingOffersUnwatch(animeUrl: string, chapters: seq<ChapterInfo>, tracker: Option<Tracker.Episodes>, chosen: string)
    requires exists i | 0 <= i < |chapters| :: chapters[i].url == chosen
    requires chosen != OpQuit && chosen != OpBack
    ensures var c := ChooseChapter(animeUrl, chapters, tracker, chosen);
      Unwatch in PlayActions(animeUrl, c.selection, c.tracker) <==> tracker.Some?
  {
  }

  /** The play options built after the chapter menu hold the previous and the
      next episode exactly when the list has a chapter numbered one less or one
      more than the chosen one. */
  lemma PlayAfterChoosingOffersNeighbours(animeUrl: string, chapters: seq<ChapterInfo>, tracker: Option<Tracker.Episodes>, chosen: string)
    requires exists i | 0 <= i < |chapters| :: chapters[i].url == chosen
    requires chosen != OpQuit && chosen != OpBack
    ensures var c := ChooseChapter(animeUrl, chapters, tracker, chosen);
      && (LastEpisode in PlayActions(animeUrl, c.selection, c.tracker) <==>
            exists i | 0 <= i < |chapters| :: chapters[i].number == c.selection.current.number - 1)
      && (NextEpisode in PlayActions(animeUrl, c.selection, c.tracker) <==>
            exists i | 0 <= i < |chapters| :: chapters[i].number == c.selection.current.number + 1)
  {
  }
}

=== FILE: numbers.dfy ===
/** Rust's `i32` and the two conversions the source applies to it: `Display`
    (`to_string`, `format!("{}")`) and `FromStr` (`str::parse::<i32>`). */
module Numbers {
  import opened Wrappers

  const MinI32: int := -0x8000_0000
  const MaxI32: int := 0x7fff_ffff

  type I32 = x: int | MinI32 <= x <= MaxI32

  predicate IsDigit(c: char) {
    '0' <= c <= '9'
  }

  predicate AllDigits(s: string) {
    forall i | 0 <= i < |s| :: IsDigit(s[i])
  }

  function DigitChar(d: nat): (c: char)
    requires d < 10
    ensures IsDigit(c)
  {
    (48 + d) as char
  }

  /** Value of a run of decimal digits, most significant first. */
  function DigitsValue(s: string): nat
    requires AllDigits(s)
  {
    if |s| == 0 then 0
    else DigitsValue(s[..|s| - 1]) * 10 + (s[|s| - 1] as int - 48)
  }

  /** Decimal form of a natural number: no sign, no leading zero. */
  function NatToString(n: nat): (r: string)
    ensures |r| >= 1 && AllDigits(r)
    ensures DigitsValue(r) == n
    ensures |r| > 1 ==> r[0] != '0'
  {
    if n < 10 then [DigitChar(n)]
    else
      var r := NatToString(n / 10) + [DigitChar(n % 10)];
      assert r[..|r| - 1] == NatToString(n / 10);
      r
  }

  /** `Display` for an integer: a leading `-` for negative values. */
  function IntToString(n: int): (r: string)
    ensures |r| >= 1
    ensures forall i | 0 <= i < |r| :: IsDigit(r[i]) || r[i] == '-'
    ensures (r[0] == '-') <==> n < 0
    ensures n >= 0 ==> AllDigits(r) && DigitsValue(r) == n && (|r| > 1 ==> r[0] != '0')
    ensures n < 0 ==> AllDigits(r[1..]) && DigitsValue(r[1..]) == -n && (|r| > 2 ==> r[1] != '0')
  {
    if n < 0 then "-" + NatToString(-n) else NatToString(n)
  }

  /** `str::parse::<i32>`: an optional `+` or `-`, then at least one decimal
      digit and nothing else, with a value inside the `i32` range. */
  function ParseI32(s: string): (r: Option<I32>)
    ensures r.Some? ==> |s| >= 1 && forall i | 0 <= i < |s| :: IsDigit(s[i]) || ((s[i] == '-' || s[i] == '+') && i == 0)
    ensures r.Some? && r.value < 0 ==> s[0] == '-'
  {
    if |s| == 0 then None
    else
      var negative := s[0] == '-';
      var digits := if s[0] == '-' || s[0] == '+' then s[1..] else s;
      if |digits| == 0 || !AllDigits(digits) then None
      else
        var v: int := if negative then -(DigitsValue(digits) as int) else DigitsValue(digits);
        if MinI32 <= v <= MaxI32 then
          assert forall i | 1 <= i < |s| :: s[i] == s[1..][i - 1];
          Some(v)
        else None
  }

  /** Parsing what `Display` wrote gives back the same `i32`. */
  lemma ParseShow(n: I32)
    ensures ParseI32(IntToString(n)) == Some(n)
  {
    var s := IntToString(n);
    if n < 0 {
      assert s[1..] == NatToString(-(n as int));
    } else {
      assert IsDigit(s[0]);
    }
  }

  /** A leading zero does not change the value of a run of digits. */
  lemma {:induction false} LeadingZeroValue(s: string)
    requires AllDigits(s)
    ensures AllDigits("0" + s) && DigitsValue("0" + s) == DigitsValue(s)
  {
    var z := "0" + s;
    assert forall i | 0 <= i < |z| :: z[i] == if i == 0 then '0' else s[i - 1];
    if |s| > 0 {
      assert z[..|z| - 1] == "0" + s[..|s| - 1];
      LeadingZeroValue(s[..|s| - 1]);
    }
  }

  /** Every run of digits in range is accepted, leading zeros included, with
      no sign, with `+` and, negated, with `-`. */
  lemma DigitForms(s: string)
    requires |s| >= 1 && AllDigits(s)
    ensures DigitsValue(s) <= MaxI32 ==>
              ParseI32(s) == Some(DigitsValue(s)) && ParseI32("+" + s) == Some(DigitsValue(s))
    ensures MinI32 <= -(DigitsValue(s) as int) ==> ParseI32("-" + s) == Some(-(DigitsValue(s) as int))
  {
    assert ("+" + s)[1..] == s;
    assert ("-" + s)[1..] == s;
  }

  /** A non-negative `i32` also reads back from `+n` and from `0n`. */
  lemma ParseOtherForms(n: I32)
    requires n >= 0
    ensures ParseI32("+" + IntToString(n)) == Some(n)
    ensures ParseI32("0" + IntToString(n)) == Some(n)
  {
    var s := IntToString(n);
    DigitForms(s);
    LeadingZeroValue(s);
    DigitForms("0" + s);
  }

  /** A value outside the `i32` range is refused even when it is well formed. */
  lemma ParseRejectsOverflow(n: int)
    requires n > MaxI32 || n < MinI32
    ensures ParseI32(IntToString(n)) == None
  {
    var s := IntToString(n);
    if n < 0 {
      assert s[1..] == NatToString(-(n as int));
    } else {
      assert IsDigit(s[0]);
    }
  }
}

=== FILE: scraper.dfy ===
/** The remote catalog resolver with its HTTP and HTML libraries taken out:
    what the HTML selectors and the JSON decoder extract arrives as input, and
    what remains is the control logic around it. */
module Scraper {
  import opened Wrappers
  import opened Numbers
  import Seqs
  import Text

  /** A discovered title. */
  datatype AnimeEntry = AnimeEntry(name: string, url: string)

  /** One episode of a title, as the chapter-list JSON describes it. */
  datatype ChapterInfo = ChapterInfo(number: I32, url: string)

  datatype QueryAnimeError = Request | NoResults

  datatype ChapterSelectionError = Request | EpisodeListUrl | Token

  datatype PlayLinksError = Request | NoLinks

  // ---------------------------------------------------------------------------
  // Search
  // ---------------------------------------------------------------------------

  /** One search card (`li.col.mb-5.ficha_efecto > article > a`) as the HTML
      library sees it: the inner HTML of its first `h3` and its `href`, each
      absent when the markup lacks it. */
  datatype SearchCard = SearchCard(heading: Option<string>, href: Option<string>)

  /** The entry a card yields, if it has both a heading and a link. */
  function CardEntry(card: SearchCard): Option<AnimeEntry>
  {
    if card.heading.Some? && card.href.Some? then Some(AnimeEntry(card.heading.value, card.href.value)) else None
  }

  /** `query_anime`: `page` is the parsed search result page, or `None` when the
      request or reading its body failed. Incomplete cards are dropped; the
      survivors form a set, and an empty set is `NoResults`. */
  function QueryAnime(page: Option<seq<SearchCard>>): (r: Result<set<AnimeEntry>, QueryAnimeError>)
    ensures r == Failure(QueryAnimeError.Request) <==> page.None?
    ensures r == Failure(QueryAnimeError.NoResults) <==>
              page.Some? && forall i | 0 <= i < |page.value| :: page.value[i].heading.None? || page.value[i].href.None?
    ensures r.Success? ==> r.value != {}
    ensures r.Success? ==> forall a :: a in r.value <==>
              exists i | 0 <= i < |page.value| :: page.value[i] == SearchCard(Some(a.name), Some(a.url))
  {
    if page.None? then Failure(QueryAnimeError.Request)
    else
      var entries := Seqs.FilterMap(page.value, CardEntry);
      var found := set a | a in entries;
      if |entries| == 0 then
        Failure(QueryAnimeError.NoResults)
      else
        assert entries[0] in found;
        assert forall a | a in found :: exists i | 0 <= i < |page.value| :: CardEntry(page.value[i]) == Some(a);
        Success(found)
  }

  // ---------------------------------------------------------------------------
  // Chapter list
  // ---------------------------------------------------------------------------

  /** The fixed page size of the chapter-list endpoint. */
  const PageSize: nat := 50

  /** What the title page yields: the `data-ajax` attribute of the first
      `section.caplist` and the `content` of the first CSRF meta tag. */
  datatype TitlePage = TitlePage(listUrl: Option<string>, csrfToken: Option<string>)

  /** The answer to one chapter-list POST: its `caps`, or `None` when the request
      or the JSON decoding failed. */
  type PageReply = Option<seq<ChapterInfo>>

  /** A reply after which no further page is requested. */
  predicate Stops(reply: PageReply) {
    reply.None? || |reply.value| < PageSize
  }

  /** A finite script of replies, page 0 first, whose last reply ends the loop. */
  predicate IsReplyScript(replies: seq<PageReply>) {
    |replies| > 0 && Stops(replies[|replies| - 1])
  }

  /** All chapters of a run of successful replies, in page order. */
  function Concat(replies: seq<PageReply>): seq<ChapterInfo>
  {
    if |replies| == 0 then [] else replies[0].GetOr([]) + Concat(replies[1..])
  }

  /** How the pagination loop ended and how many pages it requested. */
  datatype PageRun = Complete(chapters: seq<ChapterInfo>, requests: nat) | Aborted(requests: nat)

  /** The pagination loop: request pages 0, 1, 2, ... and stop right after the
      first reply that failed or held fewer than `PageSize` chapters. */
  function Paginate(replies: seq<PageReply>): (r: PageRun)
    requires IsReplyScript(replies)
    ensures 1 <= r.requests <= |replies|
    ensures forall i | 0 <= i < r.requests - 1 :: !Stops(replies[i])
    ensures Stops(replies[r.requests - 1])
    ensures r.Aborted? <==> replies[r.requests - 1].None?
    ensures r.Complete? ==> r.chapters == Concat(replies[..r.requests])
  {
    var first := replies[0];
    if first.None? then Aborted(1)
    else if |first.value| < PageSize then
      assert replies[..1] == [first];
      Complete(first.value, 1)
    else
      assert forall i | 1 <= i < |replies| :: replies[1..][i - 1] == replies[i];
      match Paginate(replies[1..])
      case Complete(rest, n) =>
        assert replies[..n + 1][1..] == replies[1..][..n];
        Complete(first.value + rest, n + 1)
      case Aborted(n) => Aborted(n + 1)
  }

  /** The loop is determined by the first reply that stops it: the pages before
      it are full, and it alone decides between success and failure. */
  lemma PaginateFirstStop(replies: seq<PageReply>, k: nat)
    requires IsReplyScript(replies)
    requires k < |replies| && Stops(replies[k])
    requires forall i | 0 <= i < k :: !Stops(replies[i])
    ensures Paginate(replies).requests == k + 1
    ensures replies[k].None? ==> Paginate(replies) == Aborted(k + 1)
    ensures replies[k].Some? ==> Paginate(replies) == Complete(Concat(replies[..k + 1]), k + 1)
  {
  }

  /** A successful reply holding `n` chapters. */
  function Page(n: nat): PageReply
  {
    Some(seq(n, i => ChapterInfo(0, "")))
  }

  /** Two full pages and a short one take three requests and yield 137 chapters. */
  lemma PaginateThreePages()
    ensures var r := Paginate([Page(50), Page(50), Page(37)]);
      r.Complete? && r.requests == 3 && |r.chapters| == 137
  {
    var replies := [Page(50), Page(50), Page(37)];
    PaginateFirstStop(replies, 2);
    assert replies[..3] == replies;
    assert replies[1..][1..] == [Page(37)];
  }

  /** A full page followed by an empty one takes two requests and yields 50 chapters. */
  lemma PaginateFullThenEmpty()
    ensures var r := Paginate([Page(50), Page(0)]);
      r.Complete? && r.requests == 2 && |r.chapters| == 50
  {
    var replies := [Page(50), Page(0)];
    PaginateFirstStop(replies, 1);
    assert replies[..2] == replies;
    assert replies[1..][1..] == [];
  }

  /** A POST to the chapter-list endpoint. */
  datatype Post = Post(target: string, body: string)

  const ListSegment: string := "ajax_pagination"
  const ChapterSegment: string := "caplist"

  /** The endpoint the pages are posted to. */
  function ChapterEndpoint(listUrl: string): string
  {
    Text.ReplaceAll(listUrl, ListSegment, ChapterSegment)
  }

  /** A list url with one `ajax_pagination` segment is posted to with that
      segment, and only it, replaced by `caplist`. */
  lemma ChapterEndpointRewrites(a: string, b: string)
    requires forall j | 0 <= j < |a| :: !Text.OccursAt(a + ListSegment, ListSegment, j)
    requires forall j | 0 <= j <= |b| :: !Text.OccursAt(b, ListSegment, j)
    ensures ChapterEndpoint(a + ListSegment + b) == a + ChapterSegment + b
  {
    Text.ReplaceAllAt(a, ListSegment, ChapterSegment, b);
  }

  /** The form body of the request for page `p`. */
  function PageBody(encodedToken: string, p: nat): string
  {
    "_token=" + encodedToken + "&p=" + NatToString(p)
  }

  /** The outcome of `select_chapters` and every POST it issued, in order. */
  datatype ChapterFetch = ChapterFetch(result: Result<seq<ChapterInfo>, ChapterSelectionError>, posts: seq<Post>)

  /** `select_chapters`: `title` is the parsed title page, or `None` when
      fetching it failed; `encode` is the URL encoding of the token; `replies`
      scripts the answers to the page requests. The list url is checked before
      the token, and any failed page aborts the whole retrieval. */
  function SelectChapters(title: Option<TitlePage>, encode: string -> string, replies: seq<PageReply>): (r: ChapterFetch)
    requires IsReplyScript(replies)
    ensures title.None? ==> r == ChapterFetch(Failure(ChapterSelectionError.Request), [])
    ensures title.Some? && title.value.listUrl.None? ==> r == ChapterFetch(Failure(ChapterSelectionError.EpisodeListUrl), [])
    ensures title.Some? && title.value.listUrl.Some? && title.value.csrfToken.None? ==>
              r == ChapterFetch(Failure(ChapterSelectionError.Token), [])
    ensures title.Some? && title.value.listUrl.Some? && title.value.csrfToken.Some? ==>
              && |r.posts| == Paginate(replies).requests
              && forall p | 0 <= p < |r.posts| ::
                   r.posts[p] == Post(ChapterEndpoint(title.value.listUrl.value),
                                      "_token=" + encode(title.value.csrfToken.value) + "&p=" + NatToString(p))
    ensures r.result.Success? <==> title.Some? && title.value.listUrl.Some? && title.value.csrfToken.Some? && Paginate(replies).Complete?
    ensures title.Some? && title.value.listUrl.Some? && title.value.csrfToken.Some? && Paginate(replies).Aborted? ==>
              r.result == Failure(ChapterSelectionError.Request)
    ensures r.result.Success? ==> r.result.value == Paginate(replies).chapters
  {
    if title.None? then ChapterFetch(Failure(ChapterSelectionError.Request), [])
    else if title.value.listUrl.None? then ChapterFetch(Failure(ChapterSelectionError.EpisodeListUrl), [])
    else if title.value.csrfToken.None? then ChapterFetch(Failure(ChapterSelectionError.Token), [])
    else
      var target := ChapterEndpoint(title.value.listUrl.value);
      var token := encode(title.value.csrfToken.value);
      var run := Paginate(replies);
      var posts := seq(run.requests, p requires 0 <= p < run.requests => Post(target, PageBody(token, p)));
      match run
      case Complete(chapters, _) => ChapterFetch(Success(chapters), posts)
      case Aborted(_) => ChapterFetch(Failure(ChapterSelectionError.Request), posts)
  }

  /** A title page missing both the list url and the token reports the list url. */
  lemma ListUrlBeforeToken(encode: string -> string, replies: seq<PageReply>)
    requires IsReplyScript(replies)
    ensures SelectChapters(Some(TitlePage(None, None)), encode, replies).result == Failure(ChapterSelectionError.EpisodeListUrl)
  {
  }

  // ---------------------------------------------------------------------------
  // Play links
  // ---------------------------------------------------------------------------

  /** One `button.play-video` with its `data-player` attribute, if it has one. */
  datatype PlayButton = PlayButton(player: Option<string>)

  /** The link a button yields: its attribute, decoded by `decode` (URL-safe
      base64 then UTF-8, failing with `None`). */
  function ButtonLink(decode: string -> Option<string>, button: PlayButton): Option<string>
  {
    if button.player.Some? then decode(button.player.value) else None
  }

  /** `get_play_links`: `page` is the parsed chapter page, or `None` when the
      request failed. Buttons without a decodable attribute are skipped; an
      empty set of links is `NoLinks`. */
  function GetPlayLinks(page: Option<seq<PlayButton>>, decode: string -> Option<string>): (r: Result<set<string>, PlayLinksError>)
    ensures r == Failure(PlayLinksError.Request) <==> page.None?
    ensures r == Failure(PlayLinksError.NoLinks) <==>
              page.Some? && forall i | 0 <= i < |page.value| :: page.value[i].player.None? || decode(page.value[i].player.value).None?
    ensures r.Success? ==> r.value != {}
    ensures r.Success? ==> forall l :: l in r.value <==>
              exists i | 0 <= i < |page.value| :: page.value[i].player.Some? && decode(page.value[i].player.value) == Some(l)
  {
    if page.None? then Failure(PlayLinksError.Request)
    else
      var links := Seqs.FilterMap(page.value, b => ButtonLink(decode, b));
      var found := set l | l in links;
      if |links| == 0 then
        Failure(PlayLinksError.NoLinks)
      else
        assert links[0] in found;
        Success(found)
  }
}

=== FILE: seqs.dfy ===
/** Sequence combinators that mirror the iterator adaptors the source uses:
    `find`, `filter_map` and `retain`. */
module Seqs {
  import opened Wrappers

  /** Index of the first element satisfying `p` (the element `iter().find` returns). */
  function Find<T>(s: seq<T>, p: T -> bool): (r: Option<nat>)
    ensures r.Some? ==> r.value < |s| && p(s[r.value])
    ensures r.Some? ==> forall j | 0 <= j < r.value :: !p(s[j])
    ensures r.None? <==> forall j | 0 <= j < |s| :: !p(s[j])
  {
    if |s| == 0 then None
    else if p(s[0]) then Some(0)
    else match Find(s[1..], p)
      case None => None
      case Some(i) => Some(i + 1)
  }

  /** Keeps, in order, the values `f` produces for the elements it accepts. */
  function FilterMap<A, B(!new)>(s: seq<A>, f: A -> Option<B>): (r: seq<B>)
    ensures |r| <= |s|
    ensures |r| == 0 <==> forall i | 0 <= i < |s| :: f(s[i]).None?
    ensures forall y :: y in r <==> exists i | 0 <= i < |s| :: f(s[i]) == Some(y)
  {
    if |s| == 0 then []
    else
      var rest := FilterMap(s[1..], f);
      assert forall i | 1 <= i < |s| :: s[i] == s[1..][i - 1];
      match f(s[0])
      case Some(y) => [y] + rest
      case None => rest
  }

  /** Filter-mapping commutes with concatenation: the kept values stay in order. */
  lemma {:induction false} FilterMapAppend<A, B(!new)>(a: seq<A>, b: seq<A>, f: A -> Option<B>)
    ensures FilterMap(a + b, f) == FilterMap(a, f) + FilterMap(b, f)
  {
    if |a| == 0 {
      assert a + b == b;
    } else {
      assert (a + b)[0] == a[0];
      assert (a + b)[1..] == a[1..] + b;
      FilterMapAppend(a[1..], b, f);
    }
  }

  /** `s` with every occurrence of `x` removed (Rust's `retain(|e| e != x)`). */
  function Without<T(==,!new)>(s: seq<T>, x: T): (r: seq<T>)
    ensures x !in r
    ensures forall y :: y in r <==> y in s && y != x
    ensures multiset(r) == multiset(s)[x := 0]
    ensures x !in s ==> r == s
  {
    if |s| == 0 then []
    else
      assert s == [s[0]] + s[1..];
      if s[0] == x then Without(s[1..], x) else [s[0]] + Without(s[1..], x)
  }

  /** Removing commutes with concatenation, so the kept elements stay in order. */
  lemma {:induction false} WithoutAppend<T(!new)>(a: seq<T>, b: seq<T>, x: T)
    ensures Without(a + b, x) == Without(a, x) + Without(b, x)
  {
    if |a| == 0 {
      assert a + b == b;
    } else {
      assert (a + b)[1..] == a[1..] + b;
      WithoutAppend(a[1..], b, x);
    }
  }

  /** No element occurs twice. */
  predicate NoDup<T(==)>(s: seq<T>) {
    forall i, j | 0 <= i < j < |s| :: s[i] != s[j]
  }
}

=== FILE: text.dfy ===
/** The string operations the source takes from Rust's `str`: `split` on a
    character, `join`, `split_once` on a pattern and `replace`. */
module Text {
  import opened Wrappers
  import Seqs

  /** Position of the first `c` in `s`. */
  function IndexOf(s: string, c: char): (r: Option<nat>)
    ensures r.Some? ==> r.value < |s| && s[r.value] == c && c !in s[..r.value]
    ensures r.None? <==> c !in s
  {
    Seqs.Find(s, (x: char) => x == c)
  }

  /** `str::split(c)`: the pieces between the occurrences of `c`, never an empty list. */
  function Split(s: string, c: char): (r: seq<string>)
    ensures |r| >= 1
    ensures forall i | 0 <= i < |r| :: c !in r[i]
    ensures Join(r, c) == s
    decreases |s|
  {
    match IndexOf(s, c)
    case None => [s]
    case Some(i) =>
      var rest := Split(s[i + 1..], c);
      assert s == s[..i] + [c] + s[i + 1..];
      assert ([s[..i]] + rest)[1..] == rest;
      [s[..i]] + rest
  }

  /** `[String]::join`: the pieces with one `c` between neighbours. */
  function Join(parts: seq<string>, c: char): string
  {
    if |parts| == 0 then ""
    else if |parts| == 1 then parts[0]
    else parts[0] + [c] + Join(parts[1..], c)
  }

  /** Splitting a join gives back the pieces, provided none holds the separator. */
  lemma {:induction false} SplitJoin(parts: seq<string>, c: char)
    requires |parts| >= 1
    requires forall i | 0 <= i < |parts| :: c !in parts[i]
    ensures Split(Join(parts, c), c) == parts
  {
    if |parts| == 1 {
      assert IndexOf(parts[0], c).None?;
    } else {
      var s := Join(parts, c);
      var a := parts[0];
      assert s == a + [c] + Join(parts[1..], c);
      assert s[|a|] == c;
      assert s[..|a|] == a;
      assert IndexOf(s, c) == Some(|a|) by {
        var j := IndexOf(s, c);
        assert c in s;
        forall k | 0 <= k < |a|
          ensures s[k] != c
        {
          assert s[k] == a[k];
        }
        assert j.value >= |a|;
        assert j.value <= |a| by {
          assert c !in s[..j.value];
          assert forall k | 0 <= k < j.value :: s[..j.value][k] == s[k];
        }
      }
      assert s[|a| + 1..] == Join(parts[1..], c);
      SplitJoin(parts[1..], c);
    }
  }

  /** A character outside every piece and different from the separator is outside the join. */
  lemma {:induction false} JoinFree(parts: seq<string>, c: char, x: char)
    requires x != c
    requires forall i | 0 <= i < |parts| :: x !in parts[i]
    ensures x !in Join(parts, c)
  {
    if |parts| > 1 {
      JoinFree(parts[1..], c, x);
    }
  }

  /** Joining two non-empty lists puts one separator between their joins. */
  lemma {:induction false} JoinAppend(a: seq<string>, b: seq<string>, c: char)
    requires |a| >= 1 && |b| >= 1
    ensures Join(a + b, c) == Join(a, c) + [c] + Join(b, c)
  {
    if |a| > 1 {
      assert (a + b)[1..] == a[1..] + b;
      JoinAppend(a[1..], b, c);
    } else {
      assert (a + b)[1..] == b;
    }
  }

  /** Splitting at a separator splits the two sides independently. */
  lemma SplitAppend(x: string, y: string, c: char)
    ensures Split(x + [c] + y, c) == Split(x, c) + Split(y, c)
  {
    var p := Split(x, c);
    var q := Split(y, c);
    JoinAppend(p, q, c);
    assert forall i | 0 <= i < |p + q| :: c !in (p + q)[i] by {
      forall i | 0 <= i < |p + q|
        ensures c !in (p + q)[i]
      {
        if i < |p| { assert (p + q)[i] == p[i]; } else { assert (p + q)[i] == q[i - |p|]; }
      }
    }
    SplitJoin(p + q, c);
  }

  /** `pat` occurs in `s` starting at index `i`. */
  predicate OccursAt(s: string, pat: string, i: nat) {
    i + |pat| <= |s| && s[i..i + |pat|] == pat
  }

  /** First occurrence of `pat` in `s` at or after `from`. */
  function FindFrom(s: string, pat: string, from: nat): (r: Option<nat>)
    requires from <= |s|
    ensures r.Some? ==> from <= r.value <= |s| && OccursAt(s, pat, r.value)
    ensures r.Some? ==> forall j | from <= j < r.value :: !OccursAt(s, pat, j)
    ensures r.None? ==> forall j | from <= j <= |s| :: !OccursAt(s, pat, j)
    decreases |s| - from
  {
    if OccursAt(s, pat, from) then Some(from)
    else if from == |s| then None
    else FindFrom(s, pat, from + 1)
  }

  /** `str::split_once(sep)`: the text before and after the first `sep`. */
  function SplitOnce(s: string, sep: string): Option<(string, string)>
  {
    match FindFrom(s, sep, 0)
    case None => None
    case Some(i) => Some((s[..i], s[i + |sep|..]))
  }

  /** `SplitOnce` cuts at the first occurrence, and fails only when there is none. */
  lemma SplitOnceSpec(s: string, sep: string)
    ensures SplitOnce(s, sep).Some? ==> SplitOnce(s, sep).value.0 + sep + SplitOnce(s, sep).value.1 == s
    ensures SplitOnce(s, sep).Some? ==> forall j | 0 <= j < |SplitOnce(s, sep).value.0| :: !OccursAt(s, sep, j)
    ensures SplitOnce(s, sep).None? <==> forall j | 0 <= j <= |s| :: !OccursAt(s, sep, j)
  {
    match FindFrom(s, sep, 0)
    case None =>
    case Some(i) =>
      assert s[i..i + |sep|] == sep;
      assert s == s[..i] + s[i..i + |sep|] + s[i + |sep|..];
  }

  /** Splitting `k + sep + rest` once gives back `k` and `rest` when no
      occurrence of `sep` in `k + sep` starts inside `k`. */
  lemma SplitOnceAt(k: string, sep: string, rest: string)
    requires forall j | 0 <= j < |k| :: !OccursAt(k + sep, sep, j)
    ensures SplitOnce(k + sep + rest, sep) == Some((k, rest))
  {
    var s := k + sep + rest;
    var ks := k + sep;
    assert s == ks + rest;
    assert s[|k|..|k| + |sep|] == sep;
    forall j | 0 <= j < |k|
      ensures !OccursAt(s, sep, j)
    {
      assert j + |sep| <= |ks|;
      assert s[j..j + |sep|] == ks[j..j + |sep|];
      assert !OccursAt(ks, sep, j);
    }
    assert OccursAt(s, sep, |k|);
    SplitOnceSpec(s, sep);
    var r := SplitOnce(s, sep);
    assert r.Some?;
    var a := r.value.0;
    assert OccursAt(s, sep, |a|) by {
      assert s == a + sep + r.value.1;
      assert s[|a|..|a| + |sep|] == sep;
    }
    assert |a| == |k|;
    assert r.value.0 == s[..|k|] == k;
    assert r.value.1 == s[|k| + |sep|..] == rest;
  }

  /** `str::replace(from, to)`: every occurrence of `from`, scanned left to right
      without overlap, is replaced by `to`. */
  function ReplaceAll(s: string, from: string, to: string): (r: string)
    requires |from| > 0
    ensures (forall j | 0 <= j <= |s| :: !OccursAt(s, from, j)) ==> r == s
    decreases |s|
  {
    match FindFrom(s, from, 0)
    case None => s
    case Some(i) => s[..i] + to + ReplaceAll(s[i + |from|..], from, to)
  }

  /** The first occurrence is where `ReplaceAll` cuts: a prefix free of `from`
      is kept, that occurrence becomes `to`, and the rest is rewritten alone. */
  lemma ReplaceAllAt(a: string, from: string, to: string, b: string)
    requires |from| > 0
    requires forall j | 0 <= j < |a| :: !OccursAt(a + from, from, j)
    ensures ReplaceAll(a + from + b, from, to) == a + to + ReplaceAll(b, from, to)
  {
    var s := a + from + b;
    SplitOnceAt(a, from, b);
    var i := FindFrom(s, from, 0).value;
    assert s[..i] == a;
    assert s[i + |from|..] == b;
  }
}

=== FILE: tracker.dfy ===
/** The watch-history store: which episodes of which title have been seen,
    kept in memory as a map and persisted as one text line per title,
    `<title url> <> <episode>,<episode>,...`, lines separated by `\n`. */
module Tracker {
  import opened Wrappers
  import opened Numbers
  import Text
  import Seqs

  /** Title url to the episodes marked seen, in the order they were marked. */
  type Episodes = map<string, seq<I32>>

  /** The two-token delimiter between a title and its episode list. */
  const Separator: string := " <> "

  /** `episode_is_seen`: the title is recorded and its list holds the episode. */
  predicate IsSeen(m: Episodes, url: string, e: I32) {
    url in m && e in m[url]
  }

  // ---------------------------------------------------------------------------
  // Loading
  // ---------------------------------------------------------------------------

  /** The comma-separated tokens of an episode list that parse as `i32`, in order;
      the others are skipped. */
  function ParseEpisodes(text: string): (r: seq<I32>)
    ensures forall e :: e in r <==> exists i | 0 <= i < |Text.Split(text, ',')| :: ParseI32(Text.Split(text, ',')[i]) == Some(e)
  {
    Seqs.FilterMap(Text.Split(text, ','), ParseI32)
  }

  /** The episodes of a list are those of its parts on each side of a comma,
      in order and with repeats. */
  lemma ParseEpisodesAppend(x: string, y: string)
    ensures ParseEpisodes(x + [','] + y) == ParseEpisodes(x) + ParseEpisodes(y)
  {
    Text.SplitAppend(x, y, ',');
    Seqs.FilterMapAppend(Text.Split(x, ','), Text.Split(y, ','), ParseI32);
  }

  /** A single token gives its value when it parses as `i32`, and nothing otherwise. */
  lemma ParseEpisodesToken(t: string)
    requires ',' !in t
    ensures ParseEpisodes(t) == (if ParseI32(t).Some? then [ParseI32(t).value] else [])
  {
    assert Text.Split(t, ',') == [t];
    assert Seqs.FilterMap([t], ParseI32) == (if ParseI32(t).Some? then [ParseI32(t).value] else []) by {
      assert [t][1..] == [];
    }
  }

  /** A hand-written list is read token by token: the tokens that parse are
      kept in order and with repeats, the others skipped, so `3,x,3,1` gives
      `[3, 3, 1]`. */
  lemma ParseEpisodesOfTokens(tokens: seq<string>)
    requires |tokens| >= 1
    requires forall i | 0 <= i < |tokens| :: ',' !in tokens[i]
    ensures ParseEpisodes(Text.Join(tokens, ',')) == Seqs.FilterMap(tokens, ParseI32)
  {
    Text.SplitJoin(tokens, ',');
  }

  /** One line of the file: split at its first separator, or dropped when it has none. */
  function ParseLine(line: string): Option<(string, seq<I32>)>
  {
    var halves := Text.SplitOnce(line, Separator);
    if halves.None? then None else Some((halves.value.0, ParseEpisodes(halves.value.1)))
  }

  /** The title a line records, if it records one. */
  function LineKey(line: string): (r: Option<string>)
    ensures r.Some? <==> ParseLine(line).Some?
    ensures r.Some? ==> r.value == ParseLine(line).value.0
  {
    var halves := Text.SplitOnce(line, Separator);
    if halves.None? then None else Some(halves.value.0)
  }

  /** Inserting the result of one line into the map built so far. */
  function Insert(m: Episodes, parsed: Option<(string, seq<I32>)>): Episodes
  {
    if parsed.Some? then m[parsed.value.0 := parsed.value.1] else m
  }

  /** The lines inserted one after another into an empty map. */
  function ParseLines(lines: seq<string>): Episodes
  {
    if |lines| == 0 then map[]
    else Insert(ParseLines(lines[..|lines| - 1]), ParseLine(lines[|lines| - 1]))
  }

  /** A title is loaded iff some line records it. */
  lemma {:induction false} ParseLinesKeys(lines: seq<string>)
    ensures forall k :: k in ParseLines(lines) <==> exists i | 0 <= i < |lines| :: LineKey(lines[i]) == Some(k)
  {
    if |lines| > 0 {
      var init := lines[..|lines| - 1];
      ParseLinesKeys(init);
      assert forall i | 0 <= i < |init| :: init[i] == lines[i];
    }
  }

  /** When several lines record the same title, the last of them wins. */
  lemma {:induction false} LastLineWins(lines: seq<string>, i: nat, k: string)
    requires i < |lines| && LineKey(lines[i]) == Some(k)
    requires forall j | i < j < |lines| :: LineKey(lines[j]) != Some(k)
    ensures k in ParseLines(lines) && ParseLine(lines[i]) == Some((k, ParseLines(lines)[k]))
  {
    var n := |lines| - 1;
    var init := lines[..n];
    var before := ParseLines(init);
    var p := ParseLine(lines[n]);
    assert ParseLines(lines) == Insert(before, p);
    if i < n {
      assert init[i] == lines[i];
      forall j | i < j < |init|
        ensures LineKey(init[j]) != Some(k)
      {
        assert init[j] == lines[j];
      }
      LastLineWins(init, i, k);
      assert LineKey(lines[n]) != Some(k);
      assert p.None? || p.value.0 != k;
      assert ParseLines(lines)[k] == before[k];
    } else {
      assert i == n;
      assert LineKey(lines[n]) == Some(k);
      assert p.Some? && p.value.0 == k;
      assert ParseLines(lines)[k] == p.value.1;
      assert p.value == (k, p.value.1);
    }
  }

  /** `EpisodeTracker::new` on the file's content. */
  function Load(content: string): Episodes
  {
    ParseLines(Text.Split(content, '\n'))
  }

  /** A freshly created (empty) file loads as the empty record. */
  lemma LoadEmpty()
    ensures Load("") == map[]
  {
    assert Text.IndexOf("", '\n').None?;
    assert Text.Split("", '\n') == [""];
    assert Text.SplitOnce("", Separator).None? by {
      assert !Text.OccursAt("", Separator, 0);
    }
  }

  // ---------------------------------------------------------------------------
  // Saving
  // ---------------------------------------------------------------------------

  /** Each episode in `Display` form. */
  function ShowAll(eps: seq<I32>): (r: seq<string>)
    ensures |r| == |eps|
    ensures forall i | 0 <= i < |eps| :: r[i] == IntToString(eps[i])
  {
    if |eps| == 0 then [] else [IntToString(eps[0])] + ShowAll(eps[1..])
  }

  function ShowEpisodes(eps: seq<I32>): string
  {
    Text.Join(ShowAll(eps), ',')
  }

  /** The line `save_state` writes for one title. */
  function Line(k: string, eps: seq<I32>): string
  {
    k + Separator + ShowEpisodes(eps)
  }

  /** `order` is an iteration order of the map's keys: each key exactly once.
      The source's hash map fixes some such order; the model accepts any. */
  predicate IsKeyOrder(m: Episodes, order: seq<string>) {
    && (forall i | 0 <= i < |order| :: order[i] in m)
    && (forall k | k in m :: k in order)
    && (forall i, j | 0 <= i < j < |order| :: order[i] != order[j])
  }

  function Lines(m: Episodes, order: seq<string>): (r: seq<string>)
    requires forall i | 0 <= i < |order| :: order[i] in m
    ensures |r| == |order|
    ensures forall i | 0 <= i < |order| :: r[i] == Line(order[i], m[order[i]])
  {
    if |order| == 0 then []
    else
      var k := order[|order| - 1];
      Lines(m, order[..|order| - 1]) + [Line(k, m[k])]
  }

  /** The serialisation half of `save_state`: one line per title in `order`,
      joined by `\n` with no trailing newline. */
  function Serialize(m: Episodes, order: seq<string>): (r: string)
    requires IsKeyOrder(m, order)
    ensures r == "" <==> m == map[]
  {
    var lines := Lines(m, order);
    if |order| > 0 then
      var k := order[|order| - 1];
      assert lines[|lines| - 1] == Line(k, m[k]);
      NonEmptyJoin(lines);
      Text.Join(lines, '\n')
    else
      Text.Join(lines, '\n')
  }

  lemma {:induction false} NonEmptyJoin(lines: seq<string>)
    requires |lines| >= 1 && |lines[|lines| - 1]| > 0
    ensures |Text.Join(lines, '\n')| > 0
  {
    if |lines| > 1 {
      NonEmptyJoin(lines[1..]);
    }
  }

  /** A title the format can carry: no newline, and the first separator of its
      line is the one written after it. */
  predicate ValidKey(k: string) {
    && '\n' !in k
    && forall j | 0 <= j < |k| :: !Text.OccursAt(k + Separator, Separator, j)
  }

  predicate Storable(m: Episodes) {
    forall k | k in m :: ValidKey(k)
  }

  lemma {:induction false} ParseShowAll(eps: seq<I32>)
    ensures Seqs.FilterMap(ShowAll(eps), ParseI32) == eps
  {
    if |eps| > 0 {
      ParseShow(eps[0]);
      assert ShowAll(eps)[1..] == ShowAll(eps[1..]);
      ParseShowAll(eps[1..]);
    }
  }

  /** An episode list, empty or not, reads back as written. */
  lemma ParseShowEpisodes(eps: seq<I32>)
    ensures ParseEpisodes(ShowEpisodes(eps)) == eps
  {
    if |eps| == 0 {
      assert ShowEpisodes(eps) == "";
      assert Text.IndexOf("", ',').None?;
      assert Text.Split("", ',') == [""];
    } else {
      var parts := ShowAll(eps);
      forall i | 0 <= i < |parts|
        ensures ',' !in parts[i]
      {
        assert parts[i] == IntToString(eps[i]);
      }
      Text.SplitJoin(parts, ',');
      ParseShowAll(eps);
    }
  }

  lemma ParseLineOfLine(k: string, eps: seq<I32>)
    requires ValidKey(k)
    ensures ParseLine(Line(k, eps)) == Some((k, eps))
  {
    Text.SplitOnceAt(k, Separator, ShowEpisodes(eps));
    ParseShowEpisodes(eps);
  }

  lemma LineHasNoNewline(k: string, eps: seq<I32>)
    requires ValidKey(k)
    ensures '\n' !in Line(k, eps)
  {
    var parts := ShowAll(eps);
    forall i | 0 <= i < |parts|
      ensures '\n' !in parts[i]
    {
      assert parts[i] == IntToString(eps[i]);
    }
    Text.JoinFree(parts, ',', '\n');
  }

  lemma {:induction false} ParseLinesOfLines(m: Episodes, order: seq<string>)
    requires forall i | 0 <= i < |order| :: order[i] in m
    requires Storable(m)
    ensures ParseLines(Lines(m, order)) == map k | k in m && k in order :: m[k]
  {
    if |order| > 0 {
      var init := order[..|order| - 1];
      var k := order[|order| - 1];
      var lines := Lines(m, order);
      assert lines[..|lines| - 1] == Lines(m, init);
      ParseLinesOfLines(m, init);
      ParseLineOfLine(k, m[k]);
      RestrictSnoc(m, order);
    }
  }

  lemma RestrictSnoc(m: Episodes, order: seq<string>)
    requires |order| > 0 && order[|order| - 1] in m
    ensures var k := order[|order| - 1];
      (map k' | k' in m && k' in order[..|order| - 1] :: m[k'])[k := m[k]] == map k' | k' in m && k' in order :: m[k']
  {
    assert order == order[..|order| - 1] + [order[|order| - 1]];
  }

  /** Round trip: loading what `save_state` wrote gives back the same record,
      whatever order the keys were written in. */
  lemma LoadSerialize(m: Episodes, order: seq<string>)
    requires IsKeyOrder(m, order)
    requires Storable(m)
    ensures Load(Serialize(m, order)) == m
  {
    if |order| == 0 {
      LoadEmpty();
    } else {
      var lines := Lines(m, order);
      forall i | 0 <= i < |lines|
        ensures '\n' !in lines[i]
      {
        LinesHaveNoNewline(m, order, i);
      }
      Text.SplitJoin(lines, '\n');
      ParseLinesOfLines(m, order);
    }
  }

  /** The text `save_state` writes is exactly one `url <> list` line per
      title, in `order`, separated by `\n`: no trailing newline. */
  lemma SplitSerialize(m: Episodes, order: seq<string>)
    requires IsKeyOrder(m, order)
    requires Storable(m)
    requires |order| > 0
    ensures Text.Split(Serialize(m, order), '\n') == Lines(m, order)
  {
    var lines := Lines(m, order);
    forall i | 0 <= i < |lines|
      ensures '\n' !in lines[i]
    {
      LinesHaveNoNewline(m, order, i);
    }
    Text.SplitJoin(lines, '\n');
  }

  lemma RoundTripWhenStorable(m: Episodes, order: seq<string>)
    requires IsKeyOrder(m, order)
    ensures Storable(m) ==> Load(Serialize(m, order)) == m
  {
    if Storable(m) {
      LoadSerialize(m, order);
    }
  }

  lemma {:induction false} LinesHaveNoNewline(m: Episodes, order: seq<string>, i: nat)
    requires forall j | 0 <= j < |order| :: order[j] in m
    requires Storable(m)
    requires i < |order|
    ensures '\n' !in Lines(m, order)[i]
  {
    var n := |order| - 1;
    if i == n {
      LineHasNoNewline(order[n], m[order[n]]);
    } else {
      LinesHaveNoNewline(m, order[..n], i);
    }
  }

  // ---------------------------------------------------------------------------
  // Marking and unmarking
  // ---------------------------------------------------------------------------

  /** The in-memory effect of `watch_episode`. */
  function Watched(m: Episodes, url: string, e: I32): (r: Episodes)
    ensures IsSeen(r, url, e)
    ensures IsSeen(m, url, e) ==> r == m
    ensures r.Keys == m.Keys + {url}
    ensures forall k | k in m && k != url :: r[k] == m[k]
    ensures url in m ==> m[url] <= r[url]
    ensures !IsSeen(m, url, e) ==> |r[url]| == (if url in m then |m[url]| else 0) + 1
    ensures url in m && Seqs.NoDup(m[url]) ==> Seqs.NoDup(r[url])
  {
    if IsSeen(m, url, e) then m
    else if url !in m then m[url := [e]]
    else m[url := m[url] + [e]]
  }

  /** The in-memory effect of `unwatch_episode`: the title stays even when its
      list becomes empty. */
  function Unwatched(m: Episodes, url: string, e: I32): (r: Episodes)
    ensures !IsSeen(r, url, e)
    ensures !IsSeen(m, url, e) ==> r == m
    ensures r.Keys == m.Keys
    ensures forall k | k in m && k != url :: r[k] == m[k]
    ensures url in m ==> multiset(r[url]) == multiset(m[url])[e := 0]
  {
    if !IsSeen(m, url, e) then m
    else if url in m then m[url := Seqs.Without(m[url], e)]
    else m
  }

  /** After a mark exactly the earlier marks and the new one are seen. */
  lemma WatchedSeen(m: Episodes, url: string, e: I32)
    ensures forall k, x :: IsSeen(Watched(m, url, e), k, x) <==> IsSeen(m, k, x) || (k == url && x == e)
  {
  }

  /** After an unmark exactly the earlier marks but that one are seen. */
  lemma UnwatchedSeen(m: Episodes, url: string, e: I32)
    ensures forall k, x :: IsSeen(Unwatched(m, url, e), k, x) <==> IsSeen(m, k, x) && !(k == url && x == e)
  {
  }

  /** Marking twice is marking once. */
  lemma WatchIdempotent(m: Episodes, url: string, e: I32)
    ensures Watched(Watched(m, url, e), url, e) == Watched(m, url, e)
  {
  }

  /** Unmarking twice is unmarking once. */
  lemma UnwatchIdempotent(m: Episodes, url: string, e: I32)
    ensures Unwatched(Unwatched(m, url, e), url, e) == Unwatched(m, url, e)
  {
  }

  /** Unmarking a fresh mark restores the record, except that a title first
      recorded by the mark stays behind with an empty list. */
  lemma UnwatchAfterWatch(m: Episodes, url: string, e: I32)
    requires !IsSeen(m, url, e)
    ensures Unwatched(Watched(m, url, e), url, e) == (if url in m then m else m[url := []])
  {
    var w := Watched(m, url, e);
    var single: seq<I32> := [e];
    assert Seqs.Without(single, e) == [];
    if url in m {
      assert w == m[url := m[url] + single];
      Seqs.WithoutAppend(m[url], single, e);
      assert Seqs.Without(w[url], e) == m[url];
      assert w[url := m[url]] == m;
    } else {
      assert w[url] == single;
    }
  }

  /** Unmarking keeps the remaining episodes in their order. */
  lemma UnwatchKeepsOrder(m: Episodes, url: string, e: I32, a: seq<I32>, b: seq<I32>)
    requires url in m && m[url] == a + b
    ensures Unwatched(m, url, e)[url] == Seqs.Without(a, e) + Seqs.Without(b, e)
  {
    Seqs.WithoutAppend(a, b, e);
  }

  /** The outcome of a store operation: the record afterwards and the complete
      new file content, when the operation rewrites the file. */
  datatype Update = Update(episodes: Episodes, written: Option<string>)

  /** `watch_episode`: nothing is written when the episode is already seen;
      otherwise the whole record is rewritten, and the file then loads back as
      the record in memory. `order` is the key order the rewrite uses. */
  function WatchEpisode(m: Episodes, url: string, e: I32, order: seq<string>): (u: Update)
    requires IsSeen(m, url, e) || IsKeyOrder(Watched(m, url, e), order)
    ensures u.episodes == Watched(m, url, e)
    ensures u.written.None? <==> IsSeen(m, url, e)
    ensures u.written.Some? && Storable(m) && ValidKey(url) ==> Load(u.written.value) == u.episodes
  {
    if IsSeen(m, url, e) then Update(m, None)
    else
      var r := Watched(m, url, e);
      RoundTripWhenStorable(r, order);
      Update(r, Some(Serialize(r, order)))
  }

  /** `unwatch_episode`: the same discipline as `WatchEpisode`. */
  function UnwatchEpisode(m: Episodes, url: string, e: I32, order: seq<string>): (u: Update)
    requires !IsSeen(m, url, e) || IsKeyOrder(m, order)
    ensures u.episodes == Unwatched(m, url, e)
    ensures u.written.None? <==> !IsSeen(m, url, e)
    ensures u.written.Some? && Storable(m) ==> Load(u.written.value) == u.episodes
  {
    if !IsSeen(m, url, e) then Update(m, None)
    else
      var r := Unwatched(m, url, e);
      assert IsKeyOrder(r, order);
      RoundTripWhenStorable(r, order);
      Update(r, Some(Serialize(r, order)))
  }
}

=== FILE: wrappers.dfy ===
/** The two sum types shared by the whole model: `Option` for values the
    source obtains through `Option`, `Result` for its `Result`s. */
module Wrappers {

  datatype Option<+T> = None | Some(value: T) {

    /** Returns the encapsulated value or `default` when there is none. */
    function GetOr(default: T): T {
      match this
      case Some(v) => v
      case None => default
    }
  }

  datatype Result<+R, +E> = Success(value: R) | Failure(error: E)
}
